=== FILE: README.md ===
# js-utilities core, modelled in Dafny

This project models the pure logic of three groups of packages of the `js-utilities` monorepo:

- the copy-on-write `Model` factory (`packages/model`). It covers the base constructor, the `update` and `map` methods every instance inherits, and `extend`, which derives new model types with their own shape function, prototype entries, statics and name;
- the function combinators of `packages/composers`: `composeCompare`, `sequence`, `allOf`, `oneOf`, `compose` and `pipe`;
- small pure rules around React: `getComponentName` and `wrapComponentName`, and the state updaters of `useObjectState`, `useBooleanState` and `useNumberState`. Each hook is a state machine whose state is the current value plus the initial value captured on the first render.

## How the JavaScript is represented

- `JsValues.Value` is the slice of JavaScript values the code handles:
  - `undefined`, `null`, booleans, integer numbers and strings;
  - function references;
  - objects, each with a prototype and a map of string-keyed fields.
- Calls into code the model cannot see go through a `JsValues.Host` parameter:
  - `call` runs a caller's function (a shape function, an `update` callback, a `map` function);
  - `show` is the string conversion of an object or function (used for computed keys and template literals).
- JavaScript prototype objects become a registry (`Model.Registry`), a sequence of types:
  - index 0 is the base factory;
  - `Extend` appends a type that records its parent's index;
  - an instance is an object whose prototype is `ModelProto(t)`.
  - Method lookup (`Model.Resolve`) walks the method tables from the type up to the base. Reads of a constructor's properties go through `Model.Static`.
- `update` is modelled as the source writes it: one argument list, dispatched in the source's order. The result is rebuilt by calling whatever the receiver's `constructor` property resolves to, with the instance as receiver (`Model.CallOnInstance`). So an own field or a prototype entry named `constructor` changes what is called:
  - a model constructor or a caller's function rebuilds as usual;
  - the builtin `update` calls itself again until the call stack overflows, a `RangeError`;
  - the builtin `map` keeps calling function results on the instance until a non-function is reached, a `TypeError`, or the stack overflows.
- Shape functions and `map` functions are called without a receiver (`Model.Call`). An `update` callback is called as `args[0](this)`, a member call, so its receiver is the argument list:
  - a model constructor, an arrow function, ignores it;
  - the builtin `map` and `extend` fail on it, as without a receiver;
  - the builtin `update` merges the instance over the list's index keys and returns a one-element `Array` (`Model.UpdateFields`).
- Errors the source raises are `Results.Err(TypeError(..))`, `Results.Err(ReferenceError(..))` or, for a call-stack overflow, `Results.Err(RangeError(..))`.
- The hooks' transitions are pure functions of the state. React's render cycle is represented only by a `Rerender` transition, which carries the initial-state argument of a later render.

Behaviour of the code worth stating explicitly:

- `update` accepts any argument count and raises no error for it.
  - `update()` merges `Object(undefined)`, an empty object. On a base instance it returns an equal instance; on a derived instance it reruns the shape on the unchanged fields.
  - With three or more arguments, only the first argument is used, except when it is the builtin `update`: called as a callback, it spreads the whole argument list, so every argument lands under its index inside field `0`.
- A shape result that is not nullish is accepted, whatever its type. Only a `null` or `undefined` result raises a `TypeError`, from `Object.entries`.
- The doc comment of `getComponentName` says the empty string is returned when no component is passed. The code returns `UnknownComponent`, and the model follows the code.

## Model

| member | source | states |
|---|---|---|
| Model.PrototypeDescriptor | packages/model/src/Model.js:1-12 | a function value becomes writable and configurable; any other value is neither; the descriptor is never enumerable and keeps the value |
| Model.Construct | packages/model/src/Model.js:14-16 | a constructor call that succeeds yields an object whose prototype is the type's own; the base constructor copies exactly the data's fields, and none when the data is missing |
| Model.Call | packages/model/src/Model.js:37-39 | a model constructor passed as an `update` callback ignores the receiver and yields an instance of exactly its own type |
| Model.Resolve | packages/model/src/Model.js:100-103 | a type's own entries take precedence; the base resolves exactly its three prototype entries |
| ModelLaws.ResolvedOnChain | packages/model/src/Model.js:100-103 | a resolved value is defined in the own table of the type or of one of its ancestors along the parent links |
| ModelLaws.ChainDefinitionResolves | packages/model/src/Model.js:100-103 | a key defined by the type or any ancestor along the parent links always resolves |
| Model.Static | packages/model/src/Model.js:105-115 | of the properties the model represents, the base constructor has `extend` and its name; a derived constructor has its configured statics and its name, and inherits no static of its parent |
| Model.NameSource | packages/model/src/Model.js:111 | the label is the configured name when that is truthy; it is always truthy; it fails exactly when no name is configured and the shape is `null` or `undefined` |
| Model.UpdateFields | packages/model/src/Model.js:33-41 | two arguments give exactly one key; a missing or nullish argument gives nothing; arguments after the first are ignored, except by the builtin `update` as callback, which gives the single key `0` holding the argument list's index fields with the instance's fields over them; only calling some other function argument can fail |
| Model.CallOnInstance | packages/model/src/Model.js:43-49 | `this.constructor(...)` yields a value only through a model constructor, giving an instance of its type, or through a caller's function; the builtin methods never yield a value |
| Model.MapOnInstance | packages/model/src/Model.js:48-50 | `map` installed as its own instance's `constructor` always fails, with a `TypeError` when it is given a non-function |
| Model.Update | packages/model/src/Model.js:32-47 | a successful `update` rebuilt through a model constructor is an instance of that constructor's type; only a model constructor or a caller's function can rebuild; a failing callback fails the call |
| Model.Map | packages/model/src/Model.js:48-50 | a successful `map` rebuilt through a model constructor is an instance of that constructor's type; only a model constructor or a caller's function can rebuild |
| Model.Extend | packages/model/src/Model.js:62-116 | `extend` appends one type and changes no earlier type; the parent is the receiver; the registry stays well formed; it fails exactly when no name is configured and the shape is `null` or `undefined` |
| ModelLaws.BaseConstructorHoldsData | packages/model/src/Model.js:14-20 | a base instance's fields are exactly the data (`{}` by default); it has the base prototype, where `update`, `map` and `constructor` resolve unless a field shadows them |
| ModelLaws.UpdateTwoArguments | packages/model/src/Model.js:33-36 | with exactly two arguments, whatever the first one is, `update` rebuilds through the receiver's type from its fields with one key set |
| ModelLaws.UpdateTwoArgumentsOnBase | packages/model/src/Model.js:32-46 | on a base instance, two arguments set one field and leave all others unchanged; a function given first is only converted to a key, and the result does not depend on calling it |
| ModelLaws.UpdateWithFunction | packages/model/src/Model.js:37-39 | a single caller's function argument is called on the receiver, and its result's fields are merged over the receiver's before rebuilding through the receiver's type |
| ModelLaws.UpdateWithFunctionOnBase | packages/model/src/Model.js:37-46 | on a base instance, the function form is a right-biased merge: returned keys win, new keys are added, and the other fields stay |
| ModelLaws.UpdateMergesObject | packages/model/src/Model.js:40-46 | any other call shape reads the first argument as an object (missing or nullish adds nothing, extra arguments are ignored) and merges it over the receiver |
| ModelLaws.UpdateMergesObjectOnBase | packages/model/src/Model.js:41-46 | on a base instance, `update(partial)` yields exactly the right-biased merge of the fields, with the same prototype |
| ModelLaws.UpdateWithItselfOnBase | packages/model/src/Model.js:37-46 | on a base instance, `inst.update(inst.update)` succeeds and sets field `0` to a plain object holding the callback under `0` with the instance's fields over it; every other field stays |
| ModelLaws.UpdateWithoutArguments | packages/model/src/Model.js:41-46 | `update()` raises no error: it rebuilds from the unchanged fields, and on a base instance it gives back an equal instance |
| ModelLaws.UpdateKeepsType | packages/model/src/Model.js:43-46 | for every call shape, a successful `update` keeps the receiver's type |
| ModelLaws.MapDefaultsToIdentity | packages/model/src/Model.js:48-50 | `map()` and `map(undefined)` rebuild the receiver through its own type; on a base instance the result equals the receiver |
| ModelLaws.MapReplaces | packages/model/src/Model.js:48-50 | for a caller's function `fn`, `map(fn)` builds from `fn(self)` alone, with no merge; on a base instance the fields are exactly those of `fn(self)` |
| ModelLaws.MapKeepsType | packages/model/src/Model.js:48-50 | a successful `map` keeps the receiver's type |
| ModelLaws.DerivedConstructorRunsShape | packages/model/src/Model.js:65-73 | a derived constructor with a caller's shape function defaults missing data to `{}` and runs the shape; the instance's own fields are exactly the entries of the shape's result; a nullish result is a `TypeError` |
| ModelLaws.UserConstructs | packages/model/src/Model.js:65-73 | the test's `User` type builds exactly the shape's defaulted fields from any object |
| ModelLaws.ResolveSurvivesGrowth | packages/model/src/Model.js:100-103 | defining a new type does not change how any earlier type resolves a key |
| ModelLaws.ExtendResolves | packages/model/src/Model.js:100-103 | a new type resolves a key from its own configured entries first, then its own `constructor`, then the receiver's chain |
| ModelLaws.ExtendRebuildsAsOwnType | packages/model/src/Model.js:100-101 | unless the configured prototype overrides `constructor`, a new type's `constructor` resolves to itself, and so does the base's |
| ModelLaws.InheritedFromBase | packages/model/src/Model.js:100-103 | a key that no derived type on the chain defines resolves to the base prototype's entry, at any depth |
| ModelLaws.ThirdGenerationFindsBaseMethod | packages/model/src/Model.js:100-103 | an instance of a type three derivations below the base finds the base's `update` |
| ModelLaws.ExtendStatics | packages/model/src/Model.js:105-115 | configured statics are visible on the new constructor only; it inherits none of the receiver's statics, `extend` included; the receiver is unchanged |
| ModelLaws.ExtendNaming | packages/model/src/Model.js:111 | for a caller's shape function, the name is the configured name if truthy, else the function's name if truthy, else `Unnamed`, always followed by `Model` |
| ModelLaws.NamingExamples | packages/model/src/Model.test.js:115-132 | `Foo` configured as `Bar` gives `BarModel`; an anonymous shape gives `UnnamedModel`; a missing shape with no name raises, and with a name does not |
| ModelLaws.ExtendDescriptors | packages/model/src/Model.js:75-98 | prototype entries are not enumerable; string-keyed functions and the iterator symbol are writable and configurable; the primitive-conversion symbol is configurable only; all other entries are fixed |
| ModelLaws.UserUpdateRebuilds | packages/model/src/Model.test.js:88-113 | `User.name` is `UserModel`, and `User().update({id: '12345'})` equals `User({id: '12345'})` |
| Composers.ReduceCompare | packages/composers/src/index.js:46 | the source's `reduce` passes a non-zero accumulator through, and otherwise gives the first non-zero comparison |
| Composers.ComposeCompare | packages/composers/src/index.js:41-46 | no comparators always tie; a single comparator is returned unchanged; otherwise the result is the first non-zero comparison in list order |
| Composers.FirstNonzeroDecides | packages/composers/src/index.js:41-46 | when comparator `i` is the first that does not tie, the composed comparison equals its result |
| Composers.AllTieMeansTie | packages/composers/src/index.js:41-46 | when every comparator ties, the composed comparison is 0 |
| Composers.StopsAtFirstNonzero | packages/composers/src/index.js:46 | with comparator `i` the first non-zero one, exactly `i + 1` comparators are invoked, so later ones are not consulted |
| Composers.NonzeroConsultsNothing | packages/composers/src/index.js:46 | once the accumulator is non-zero, no further comparator is invoked |
| Composers.ForEach | packages/composers/src/index.js:69-71 | `forEach` calls every function exactly once, in list order, on the same argument |
| Composers.Sequence | packages/composers/src/index.js:64-71 | `sequence(...fns)(x)` makes one call per function, in list order, each on `x`; the empty list makes no call |
| Composers.Every | packages/composers/src/index.js:91 | `every` holds iff each predicate holds |
| Composers.Some | packages/composers/src/index.js:107 | `some` holds iff some predicate holds |
| Composers.AllOf | packages/composers/src/index.js:86-91 | `allOf` is conjunction: the empty list is always true, and a single predicate is returned unchanged |
| Composers.OneOf | packages/composers/src/index.js:102-107 | `oneOf` is disjunction: the empty list is always false, and a single predicate is returned unchanged |
| Composers.OneOfIsDualOfAllOf | packages/composers/src/index.js:86-107 | `oneOf(ps)` holds iff `allOf` of the negated predicates fails |
| Composers.ReduceRightIsNest | packages/composers/src/index.js:132 | the `reduceRight` fold equals nested application `f1(f2(...fn(x)))` |
| Composers.ReduceIsReversedNest | packages/composers/src/index.js:148 | the left `reduce` fold equals nested application of the reversed list |
| Composers.Compose | packages/composers/src/index.js:127-132 | `compose` of no functions is the identity; a single function is returned unchanged; otherwise it applies right to left |
| Composers.PipeAsWritten | packages/composers/src/index.js:143-148 | as written, every call of `pipe` raises a `ReferenceError` |
| Composers.Pipe | packages/composers/src/index.js:143-148 | the intended `pipe` is the identity on no functions and returns a single function unchanged; it is `compose` of the reversed list, so it applies left to right |
| Composers.PipeDefect | packages/composers/src/index.js:143-148 | the written `pipe` fails for every list; the intended one is the identity on `[]`, and on `[f, g]` it gives `g(f(x))` |
| ComponentName.GetComponentName | packages/react-primitives/src/utils/componentName.js:11-21 | missing or empty gives `UnknownComponent`; a non-empty string is returned unchanged; otherwise `displayName`, else `name`, else unknown; the result is never falsy, so never empty |
| ComponentName.WrapComponentName | packages/react-primitives/src/utils/componentName.js:30-31 | the wrapped name starts with the wrapper's name and ends with `)`, and its length is both names plus two |
| ComponentName.UnwrapWrapped | packages/react-primitives/src/utils/componentName.js:30-31 | when the wrapper's name has no `(`, splitting the wrapped name at the first `(` recovers both names |
| ObjectState.Step | packages/react-hooks/src/useObjectState.js:24-35 | `set` replaces the state, `reset` gives the captured initial state, a later render changes nothing; no transition changes the captured state |
| ObjectState.Init | packages/react-hooks/src/useObjectState.js:20 | the initial state defaults to `{}` and is captured as the reset target |
| ObjectState.SetFieldOf | packages/react-hooks/src/useObjectState.js:39-44 | `setField(k, v)` sets or adds key `k` only; every other field is unchanged |
| ObjectState.UpdateOf | packages/react-hooks/src/useObjectState.js:48-53 | `update(partial)` is a right-biased merge; fields absent from `partial` keep their values |
| ObjectState.Run | packages/react-hooks/src/useObjectState.js:28-35 | no sequence of calls or renders changes the captured initial state |
| ObjectState.ResetRestoresFirstInitial | packages/react-hooks/src/useObjectState.test.js:57-86 | after any calls and renders, even renders with a different initial value, `reset` restores the first initial state |
| ObjectState.SetFieldIsOneKeyUpdate | packages/react-hooks/src/useObjectState.js:39-53 | `setField(k, v)` has the same effect as `update({[k]: v})` |
| ObjectState.SetReplaces | packages/react-hooks/src/useObjectState.js:24-26 | `set` replaces the whole state; the result does not depend on the previous state |
| BooleanState.Init | packages/react-hooks/src/useBooleanState.js:46-47 | the initial state defaults to `false` and is captured |
| BooleanState.Step | packages/react-hooks/src/useBooleanState.js:46-65 | `on` gives true, `off` gives false, `toggle` flips, `set` replaces, `reset` gives the captured value and a later render changes nothing; the captured value never changes |
| BooleanState.Run | packages/react-hooks/src/useBooleanState.js:50-56 | no sequence of calls changes the captured initial value |
| BooleanState.OnOffIdempotent | packages/react-hooks/src/useBooleanState.js:57-62 | `on` and `off` do not depend on the current state, and applying either twice equals applying it once |
| BooleanState.ToggleTwice | packages/react-hooks/src/useBooleanState.js:63-65 | toggling twice restores the state |
| BooleanState.ResetRestoresFirstInitial | packages/react-hooks/src/useBooleanState.js:50-56 | after any calls, `reset` restores the first initial value |
| NumberState.CheckInitial | packages/react-hooks/src/useNumberState.js:48-53 | the guard raises a `TypeError` exactly for NaN, +Infinity and -Infinity; an omitted argument is 0 |
| NumberState.Init | packages/react-hooks/src/useNumberState.js:48-55 | initialisation fails exactly on a non-finite argument; otherwise it starts at the argument, 0 by default, which is also the captured value |
| NumberState.Inc | packages/react-hooks/src/useNumberState.js:65-67 | `inc(delta)` adds `delta`, 1 by default |
| NumberState.DecAsWritten | packages/react-hooks/src/useNumberState.js:68-70 | as written, `dec`'s updater always raises a `ReferenceError` when applied |
| NumberState.Dec | packages/react-hooks/src/useNumberState.js:9 | the documented `dec(decValue)` subtracts `decValue`, 1 by default |
| NumberState.Neg | packages/react-hooks/src/useNumberState.js:71-73 | `neg` negates a finite state (0 stays 0) and swaps the infinities; NaN stays NaN |
| NumberState.SetTo | packages/react-hooks/src/useNumberState.js:57 | `set` replaces the state and skips the guard |
| NumberState.ResetOf | packages/react-hooks/src/useNumberState.js:58-64 | `reset` restores the captured initial value |
| NumberState.Rerender | packages/react-hooks/src/useNumberState.js:48-55 | a later render reruns the guard on its argument and otherwise leaves the state unchanged |
| NumberState.Step | packages/react-hooks/src/useNumberState.js:56-74 | a transition fails only for a render with a non-finite argument, and never changes the captured value |
| NumberState.Run | packages/react-hooks/src/useNumberState.js:56-74 | no successful sequence of transitions changes the captured value |
| NumberState.NegTwice | packages/react-hooks/src/useNumberState.js:10 | `neg` applied twice is the identity |
| NumberState.DecUndoesInc | packages/react-hooks/src/useNumberState.js:8-9 | the documented `dec` by a finite amount undoes `inc` by the same amount |
| NumberState.DecDefect | packages/react-hooks/src/useNumberState.js:68-70 | on a finite state, the written `dec()` fails where the documented one subtracts 1 |
| NumberState.ResetRestoresFirstInitial | packages/react-hooks/src/useNumberState.js:58-64 | after any successful run, `reset` restores the first initial value |
| NumberState.StepAsWritten | packages/react-hooks/src/useNumberState.js:56-74 | as written, a `dec` transition fails with a `ReferenceError`; every other transition is the documented one |
| NumberState.RunAsWritten | packages/react-hooks/src/useNumberState.js:56-74 | as written, a run without `dec` agrees with the documented hook |
| NumberState.RunAsWrittenFailsAtDec | packages/react-hooks/src/useNumberState.js:68-70 | with `dec` as written, any run that contains a `dec` fails, whatever renders and calls come before it |

## Findings

| source | as written | input that shows it | evidently intended | confidence | as-written member | corrected member |
|---|---|---|---|---|---|---|
| packages/composers/src/index.js:143-148 | the length tests read `mapFns`, which is not bound in `pipe` (its parameter is `fns`), so every call raises a `ReferenceError` | `pipe(f, g)`, or even `pipe()` | test `fns.length` and fold the functions left to right, as line 148 does | not executed | Composers.PipeAsWritten | Composers.Pipe |
| packages/react-hooks/src/useNumberState.js:68-70 | `dec`'s updater adds `incValue`, which is not bound in `dec`, so the update raises a `ReferenceError` | `dec()` on any state | subtract `decValue`, 1 by default, as the API comment on line 9 says | not executed | NumberState.DecAsWritten | NumberState.Dec |

The corrected `pipe` is proved to be `compose` of the reversed list. The corrected `dec` is the one `NumberState.Step` uses, and it is proved to undo `inc`. `NumberState.StepAsWritten` and `NumberState.RunAsWritten` keep the written behaviour.

## Left out

- Reference identity: values here are immutable, so "the receiver is not changed" holds by construction. The source's promise that `update` returns a distinct object cannot be stated.
- Floating point: `JsValues.Value` numbers are integers. The number hook uses integers plus NaN and the two infinities, with IEEE 754 rules on those values only. Fractions, rounding and `-0` are not modelled.
- Spreading or boxing a string: `Object('ab')` and `{...'ab'}` have index keys `0`, `1`. `JsValues.OwnEntries` gives no fields for every non-object.
- Own enumerable properties of function values are not modelled; they count as none. The source's constructors do carry an enumerable `prototype`, and the base also an enumerable `extend`.
- Symbols as values, and symbol-keyed own fields of instances. Prototype tables do have symbol keys. Symbol-keyed statics are ignored by the source, and a `stat` map keyed by strings cannot express them.
- The members of `Object.prototype` (`toString`, `hasOwnProperty`, its `constructor`) are not modelled: method lookup ends at the base prototype.
- A data field named `__proto__` given to the base constructor: `Object.assign` would run the prototype setter.
- `extend` with a `null` config, or a `null` `proto` or `stat`: the source raises a `TypeError` from destructuring or `Object.entries`.
- A static named `prototype`: it would replace the prototype a derived constructor builds from.
- Caller functions are total and pure (`Host.call`). A shape function or callback that throws is not modelled. Nor is a caller's function that reads its receiver: a user prototype method, or an `update` callback reading the argument list it receives as `this`.
- Model.Static: a constructor's `prototype`, `length` and the members it inherits from `Function.prototype` read as `undefined`. Prototype objects are the registry's tables, not values, so the model cannot return them.
- `update` and `map` invoked through `call`/`apply` on a primitive receiver: the receiver is an object (`requires self.Obj?`).
- Property attributes of instance fields: derived instance fields are enumerable and not writable. No modelled operation writes a field in place.
- ModelLaws.UpdateKeepsType: stated only for instances whose `constructor` resolves to their own type. With an own `constructor` field or an overriding prototype entry, `update` calls whatever that property holds; `Model.Update`'s own contract covers that case, giving the type the property names.
- ModelLaws.MapKeepsType: stated only for instances whose `constructor` resolves to their own type, for the same reason; `Model.Map`'s own contract covers an overridden `constructor`.
- Model.CallOnInstance: the builtin `extend` installed as an instance's `constructor` is modelled as a `TypeError`, which is what the source raises when the instance's `prototype` is not an object or `null`. An instance with an object-valued `prototype` field would instead get a new constructor function back, which the registry cannot represent.
- Model.MapOnInstance: the call-stack overflow happens after `CallStackLimit` nested calls, a fixed number; the engine's real limit varies.
- `sequence`, `allOf`, `oneOf`, `compose` and the corrected `pipe` with one function return that function. It then forwards extra arguments and its raw, possibly non-boolean, result. The model uses one-argument functions, boolean predicates and a single value type for `compose` and `pipe`. `sequence` records calls only, not what effects do.
- Comparators returning NaN.
- React itself: render scheduling, batching, and the identity stability of the API object. Also passing a function to a hook's `set` (React applies it as an updater), and non-boolean or non-number values given to the boolean and number hooks.
- The HTTP client, `ErrorBoundary`, `Debounce`, `Timer`, `LayoutDecorator`, `useConstant` and `useEffectOnMounted`: network, rendering, timers and thin wrappers over React, outside this model.

=== FILE: boolean_state.dfy ===
/** The state updaters of `useBooleanState` as a state machine over the
    current flag and the flag captured on the first render. */
module BooleanState {
  import opened Results

  datatype State = State(current: bool, initial: bool)

  datatype Action =
    | Set(next: bool)
    | Reset
    | On
    | Off
    | Toggle
    | Rerender(initialArg: Option<bool>)

  /** The first render: the initial state defaults to `false`. */
  function Init(initialArg: Option<bool>): (s: State)
    ensures s.current == s.initial
    ensures s.current <==> initialArg == Some(true)
  {
    var initial := initialArg.GetOr(false);
    State(initial, initial)
  }

  /** One transition. A later render keeps the state: the state hook
      ignores a new initial argument. */
  function Step(s: State, a: Action): (r: State)
    ensures r.initial == s.initial
    ensures a.On? ==> r.current
    ensures a.Off? ==> !r.current
    ensures a.Toggle? ==> r.current != s.current
    ensures a.Set? ==> r.current == a.next
    ensures a.Reset? ==> r.current == s.initial
    ensures a.Rerender? ==> r == s
  {
    match a
    case Set(next) => State(next, s.initial)
    case Reset => State(s.initial, s.initial)
    case On => State(true, s.initial)
    case Off => State(false, s.initial)
    case Toggle => State(!s.current, s.initial)
    case Rerender(_) => s
  }

  function Run(s: State, actions: seq<Action>): (r: State)
    ensures r.initial == s.initial
    decreases |actions|
  {
    if |actions| == 0 then s else Run(Step(s, actions[0]), actions[1..])
  }

  /** `on` and `off` ignore the current state, so each is idempotent. */
  lemma OnOffIdempotent(s: State, t: State)
    requires s.initial == t.initial
    ensures Step(s, On) == Step(t, On) && Step(Step(s, On), On) == Step(s, On)
    ensures Step(s, Off) == Step(t, Off) && Step(Step(s, Off), Off) == Step(s, Off)
  {
  }

  /** Toggling twice gives back the original state. */
  lemma ToggleTwice(s: State)
    ensures Step(Step(s, Toggle), Toggle) == s
  {
  }

  /** `reset` restores the first captured initial value after any run. */
  lemma ResetRestoresFirstInitial(initialArg: Option<bool>, actions: seq<Action>)
    ensures Step(Run(Init(initialArg), actions), Reset).current == initialArg.GetOr(false)
  {
  }
}

=== FILE: component_name.dfy ===
/** Display names of React components, and the `Hoc(Base)` names given to
    components wrapped by higher-order components. */
module ComponentName {
  import opened JsValues
  import opened Results

  /** What can be passed where a component is expected. */
  datatype Component =
    | Absent                                 // `null` or `undefined`
    | Text(s: string)                        // a string, the name of a host element
    | Typed(displayName: Value, name: Value) // a function, class or object, with its two name properties
  // A number or a boolean reads both name properties as `undefined`, so it
  // behaves as `Typed(Undefined, Undefined)`.

  const UnknownComponentName := "UnknownComponent"

  /** `getComponentName(c)`: a missing component or the empty string is
      unknown, a string is its own name, and a component object yields its
      `displayName` if truthy, else its `name` if truthy, else unknown. The
      result is never falsy, in particular never the empty string. */
  function GetComponentName(c: Component): (r: Value)
    ensures Truthy(r)
    ensures c.Absent? || c == Text("") ==> r == Str(UnknownComponentName)
    ensures c.Text? && c.s != "" ==> r == Str(c.s)
    ensures c.Typed? && Truthy(c.displayName) ==> r == c.displayName
    ensures c.Typed? && !Truthy(c.displayName) && Truthy(c.name) ==> r == c.name
    ensures c.Typed? && !Truthy(c.displayName) && !Truthy(c.name) ==> r == Str(UnknownComponentName)
  {
    match c
    case Absent => Str(UnknownComponentName)
    case Text(s) => if s == "" then Str(UnknownComponentName) else Str(s)
    case Typed(displayName, name) =>
      if Truthy(displayName) then displayName
      else if Truthy(name) then name
      else Str(UnknownComponentName)
  }

  /** The text a name value becomes inside a template literal. */
  function NameText(host: Host, c: Component): string {
    ToString(host, GetComponentName(c))
  }

  /** `wrapComponentName(base, hoc)`: `Hoc(Base)`. */
  function WrapComponentName(host: Host, base: Component, hoc: Component): (r: string)
    ensures |r| == |NameText(host, hoc)| + |NameText(host, base)| + 2
    ensures NameText(host, hoc) <= r && r[|r| - 1] == ')'
    ensures r[|NameText(host, hoc)|] == '(' && r[|NameText(host, hoc)| + 1..|r| - 1] == NameText(host, base)
  {
    NameText(host, hoc) + "(" + NameText(host, base) + ")"
  }

  /** The position of the first `c` in `s`, if any. */
  function IndexOf(s: string, c: char): (r: Option<nat>)
    ensures r.Some? ==> r.value < |s| && s[r.value] == c && forall j :: 0 <= j < r.value ==> s[j] != c
    ensures r.None? ==> forall j :: 0 <= j < |s| ==> s[j] != c
    decreases |s|
  {
    if |s| == 0 then None
    else if s[0] == c then Some(0)
    else match IndexOf(s[1..], c)
      case None => None
      case Some(i) => Some(i + 1)
  }

  /** Splits a wrapped name `Hoc(Base)` back into its two names, at the
      first opening parenthesis. */
  function Unwrap(s: string): Option<(string, string)> {
    match IndexOf(s, '(')
    case None => None
    case Some(i) =>
      if i + 2 <= |s| && s[|s| - 1] == ')' then Some((s[..i], s[i + 1..|s| - 1])) else None
  }

  /** The wrapped name determines both names whenever the wrapper's name has
      no opening parenthesis of its own. */
  lemma UnwrapWrapped(host: Host, base: Component, hoc: Component)
    requires '(' !in NameText(host, hoc)
    ensures Unwrap(WrapComponentName(host, base, hoc)) == Some((NameText(host, hoc), NameText(host, base)))
  {
    var h := NameText(host, hoc);
    var b := NameText(host, base);
    var w := WrapComponentName(host, base, hoc);
    assert w[|h|] == '(';
    assert forall j :: 0 <= j < |h| ==> w[j] == h[j];
    var i := IndexOf(w, '(');
    assert i == Some(|h|);
    assert w[..|h|] == h;
    assert w[|h| + 1..|w| - 1] == b;
  }
}

=== FILE: composers.dfy ===
/** Combinators over lists of functions: comparator tie-breaking, predicate
    conjunction and disjunction, function composition in both directions,
    and calling effects in sequence. Each combinator is defined the way the
    source computes it (a `reduce`, `every`, `some`, `reduceRight` or
    `forEach`) and its contract relates it to an independent definition. */
module Composers {
  import opened Results

  // ------------------------------------------------------------ composeCompare

  /** The reference meaning of a tie-break: the first non-zero comparison in
      list order, or 0 when every comparator ties. */
  function FirstNonzero<T>(cs: seq<(T, T) -> int>, a: T, b: T): int
    decreases |cs|
  {
    if |cs| == 0 then 0
    else if cs[0](a, b) != 0 then cs[0](a, b)
    else FirstNonzero(cs[1..], a, b)
  }

  /** The `reduce` of the source: a non-zero accumulator is passed through,
      otherwise the next comparator is consulted. */
  function ReduceCompare<T>(cs: seq<(T, T) -> int>, a: T, b: T, acc: int): (r: int)
    ensures r == if acc != 0 then acc else FirstNonzero(cs, a, b)
    decreases |cs|
  {
    if |cs| == 0 then acc
    else ReduceCompare(cs[1..], a, b, if acc != 0 then acc else cs[0](a, b))
  }

  /** How many comparators the `reduce` invokes: it stops calling once the
      accumulator is non-zero. */
  function Consulted<T>(cs: seq<(T, T) -> int>, a: T, b: T, acc: int): nat
    decreases |cs|
  {
    if |cs| == 0 then 0
    else if acc != 0 then Consulted(cs[1..], a, b, acc)
    else 1 + Consulted(cs[1..], a, b, cs[0](a, b))
  }

  /** `composeCompare(...cs)`: no comparators always tie, one comparator is
      returned as it is, several break ties in list order. */
  function ComposeCompare<T(!new)>(cs: seq<(T, T) -> int>): (r: (T, T) -> int)
    ensures |cs| == 0 ==> forall a, b :: r(a, b) == 0
    ensures |cs| == 1 ==> r == cs[0]
    ensures forall a, b :: r(a, b) == FirstNonzero(cs, a, b)
  {
    if |cs| == 0 then (a, b) => 0
    else if |cs| == 1 then cs[0]
    else (a, b) => ReduceCompare(cs, a, b, 0)
  }

  /** The tie-break is decided by the first comparator that does not tie, and
      is 0 exactly when all of them tie. */
  lemma {:induction false} FirstNonzeroDecides<T(!new)>(cs: seq<(T, T) -> int>, a: T, b: T, i: nat)
    requires i < |cs| && cs[i](a, b) != 0
    requires forall j :: 0 <= j < i ==> cs[j](a, b) == 0
    ensures ComposeCompare(cs)(a, b) == cs[i](a, b)
    decreases i
  {
    if i > 0 {
      FirstNonzeroDecides(cs[1..], a, b, i - 1);
    }
  }

  lemma {:induction false} AllTieMeansTie<T(!new)>(cs: seq<(T, T) -> int>, a: T, b: T)
    requires forall j :: 0 <= j < |cs| ==> cs[j](a, b) == 0
    ensures ComposeCompare(cs)(a, b) == 0
    decreases |cs|
  {
    if |cs| > 0 {
      AllTieMeansTie(cs[1..], a, b);
    }
  }

  /** Comparators after the deciding one are not consulted: with comparator
      `i` the first non-zero one, the `reduce` calls exactly `i + 1` of them. */
  lemma {:induction false} StopsAtFirstNonzero<T>(cs: seq<(T, T) -> int>, a: T, b: T, i: nat)
    requires i < |cs| && cs[i](a, b) != 0
    requires forall j :: 0 <= j < i ==> cs[j](a, b) == 0
    ensures Consulted(cs, a, b, 0) == i + 1
    decreases i
  {
    if i == 0 {
      NonzeroConsultsNothing(cs[1..], a, b, cs[0](a, b));
    } else {
      StopsAtFirstNonzero(cs[1..], a, b, i - 1);
    }
  }

  lemma {:induction false} NonzeroConsultsNothing<T>(cs: seq<(T, T) -> int>, a: T, b: T, acc: int)
    requires acc != 0
    ensures Consulted(cs, a, b, acc) == 0
    decreases |cs|
  {
    if |cs| > 0 {
      NonzeroConsultsNothing(cs[1..], a, b, acc);
    }
  }

  // ---------------------------------------------------------------- sequence

  /** One call of an effect: which function ran, and on what argument. */
  datatype Invocation<A> = Invocation(fn: nat, arg: A)

  /** The `forEach` of the source, as the trace of calls it makes. */
  function ForEach<A>(fns: seq<nat>, x: A): (trace: seq<Invocation<A>>)
    ensures |trace| == |fns|
    ensures forall i :: 0 <= i < |fns| ==> trace[i] == Invocation(fns[i], x)
    decreases |fns|
  {
    if |fns| == 0 then [] else [Invocation(fns[0], x)] + ForEach(fns[1..], x)
  }

  /** `sequence(...fns)(x)`: every effect is called exactly once, in list
      order, with the same argument; no effects means no calls. Effects are
      named by ids; what they do is outside this model. */
  function Sequence<A>(fns: seq<nat>, x: A): (trace: seq<Invocation<A>>)
    ensures |trace| == |fns|
    ensures forall i :: 0 <= i < |fns| ==> trace[i] == Invocation(fns[i], x)
  {
    if |fns| == 0 then []
    else if |fns| == 1 then [Invocation(fns[0], x)]
    else ForEach(fns, x)
  }

  // ------------------------------------------------------------ allOf, oneOf

  /** `Array.prototype.every`, stopping at the first failing predicate. */
  function Every<T>(ps: seq<T -> bool>, x: T): (r: bool)
    ensures r <==> forall i :: 0 <= i < |ps| ==> ps[i](x)
    decreases |ps|
  {
    if |ps| == 0 then true
    else if !ps[0](x) then false
    else Every(ps[1..], x)
  }

  /** `Array.prototype.some`, stopping at the first passing predicate. */
  function Some<T>(ps: seq<T -> bool>, x: T): (r: bool)
    ensures r <==> exists i :: 0 <= i < |ps| && ps[i](x)
    decreases |ps|
  {
    if |ps| == 0 then false
    else if ps[0](x) then true
    else Some(ps[1..], x)
  }

  /** `allOf(...ps)`: conjunction, with the empty list always true. */
  function AllOf<T(!new)>(ps: seq<T -> bool>): (r: T -> bool)
    ensures |ps| == 0 ==> forall x :: r(x)
    ensures |ps| == 1 ==> r == ps[0]
    ensures forall x :: r(x) <==> forall i :: 0 <= i < |ps| ==> ps[i](x)
  {
    if |ps| == 0 then _ => true
    else if |ps| == 1 then ps[0]
    else x => Every(ps, x)
  }

  /** `oneOf(...ps)`: disjunction, with the empty list always false. */
  function OneOf<T(!new)>(ps: seq<T -> bool>): (r: T -> bool)
    ensures |ps| == 0 ==> forall x :: !r(x)
    ensures |ps| == 1 ==> r == ps[0]
    ensures forall x :: r(x) <==> exists i :: 0 <= i < |ps| && ps[i](x)
  {
    if |ps| == 0 then _ => false
    else if |ps| == 1 then ps[0]
    else x => Some(ps, x)
  }

  /** `oneOf` is the dual of `allOf` over the negated predicates. */
  lemma OneOfIsDualOfAllOf<T(!new)>(ps: seq<T -> bool>, x: T)
    ensures OneOf(ps)(x) <==> !AllOf(Negations(ps))(x)
  {
    var ns := Negations(ps);
    if OneOf(ps)(x) {
      var i :| 0 <= i < |ps| && ps[i](x);
      assert !ns[i](x);
    }
  }

  /** Each predicate negated. */
  function Negations<T(!new)>(ps: seq<T -> bool>): (ns: seq<T -> bool>)
    ensures |ns| == |ps|
    ensures forall i, x :: 0 <= i < |ps| ==> (ns[i](x) <==> !ps[i](x))
  {
    seq(|ps|, i requires 0 <= i < |ps| => (x: T) => !ps[i](x))
  }

  // ------------------------------------------------------------ compose, pipe

  /** The reference meaning of composition: `fs[0](fs[1](... fs[n-1](x)))`. */
  function Nest<T>(fs: seq<T -> T>, x: T): T
    decreases |fs|
  {
    if |fs| == 0 then x else fs[0](Nest(fs[1..], x))
  }

  /** The `reduceRight` of the source: the last function is applied first. */
  function ReduceRight<T>(fs: seq<T -> T>, acc: T): T
    decreases |fs|
  {
    if |fs| == 0 then acc else ReduceRight(fs[..|fs| - 1], fs[|fs| - 1](acc))
  }

  /** The `reduce` of the intended `pipe`: the first function is applied first. */
  function Reduce<T>(fs: seq<T -> T>, acc: T): T
    decreases |fs|
  {
    if |fs| == 0 then acc else Reduce(fs[1..], fs[0](acc))
  }

  function Reverse<X>(s: seq<X>): (r: seq<X>)
    ensures |r| == |s|
    ensures forall i :: 0 <= i < |s| ==> r[i] == s[|s| - 1 - i]
    decreases |s|
  {
    if |s| == 0 then [] else Reverse(s[1..]) + [s[0]]
  }

  /** Applying one more function last on the right means applying it first. */
  lemma {:induction false} NestSnoc<T>(fs: seq<T -> T>, f: T -> T, x: T)
    ensures Nest(fs + [f], x) == Nest(fs, f(x))
    decreases |fs|
  {
    if |fs| > 0 {
      assert (fs + [f])[1..] == fs[1..] + [f];
      NestSnoc(fs[1..], f, x);
    }
  }

  lemma {:induction false} ReduceRightIsNest<T>(fs: seq<T -> T>, x: T)
    ensures ReduceRight(fs, x) == Nest(fs, x)
    decreases |fs|
  {
    if |fs| > 0 {
      var init := fs[..|fs| - 1];
      ReduceRightIsNest(init, fs[|fs| - 1](x));
      NestSnoc(init, fs[|fs| - 1], x);
      assert init + [fs[|fs| - 1]] == fs;
    }
  }

  lemma {:induction false} ReduceIsReversedNest<T>(fs: seq<T -> T>, x: T)
    ensures Reduce(fs, x) == Nest(Reverse(fs), x)
    decreases |fs|
  {
    if |fs| > 0 {
      ReduceIsReversedNest(fs[1..], fs[0](x));
      NestSnoc(Reverse(fs[1..]), fs[0], x);
    }
  }

  /** `compose(...fs)`: the identity for no functions, the function itself
      for one, and right-to-left application for several. */
  function Compose<T(!new)>(fs: seq<T -> T>): (r: T -> T)
    ensures |fs| == 0 ==> forall x :: r(x) == x
    ensures |fs| == 1 ==> r == fs[0]
    ensures forall x :: r(x) == Nest(fs, x)
  {
    if |fs| == 0 then x => x
    else if |fs| == 1 then fs[0]
    else
      assert forall x :: ReduceRight(fs, x) == Nest(fs, x) by {
        forall x { ReduceRightIsNest(fs, x); }
      }
      x => ReduceRight(fs, x)
  }

  /** `pipe` as written: its body tests `mapFns`, a name not bound in `pipe`,
      so every call, whatever its arguments, raises a `ReferenceError`. */
  function PipeAsWritten<T>(fs: seq<T -> T>): (r: Result<T -> T>)
    ensures r.Err? && r.error.ReferenceError?
  {
    Err(ReferenceError("mapFns"))
  }

  /** `pipe(...fs)` with the length tests reading `fns`, as its final branch
      does: left-to-right application, the reverse of `compose`. */
  function Pipe<T(!new)>(fs: seq<T -> T>): (r: T -> T)
    ensures |fs| == 0 ==> forall x :: r(x) == x
    ensures |fs| == 1 ==> r == fs[0]
    ensures forall x :: r(x) == Compose(Reverse(fs))(x)
  {
    if |fs| == 0 then x => x
    else if |fs| == 1 then fs[0]
    else
      assert forall x :: Reduce(fs, x) == Nest(Reverse(fs), x) by {
        forall x { ReduceIsReversedNest(fs, x); }
      }
      x => Reduce(fs, x)
  }

  /** The defect: for any list, the written `pipe` fails where the intended
      one returns a function (the identity for the empty list). */
  lemma PipeDefect<T(!new)>(fs: seq<T -> T>, x: T)
    ensures PipeAsWritten(fs).Err?
    ensures |fs| == 0 ==> Pipe(fs)(x) == x
    ensures |fs| == 2 ==> Pipe(fs)(x) == fs[1](fs[0](x))
  {
    if |fs| == 2 {
      assert Reverse(fs) == [fs[1], fs[0]];
      assert Nest([fs[1], fs[0]], x) == fs[1](Nest([fs[0]], x));
    }
  }
}

=== FILE: js_values.dfy ===
/** The slice of JavaScript's value space the modelled packages work with. */
module JsValues {

  /** A reference to a function value. Function bodies that belong to callers
      are opaque: they are identified by an id and interpreted by a `Host`. */
  datatype FnRef =
    | UserFn(id: nat, fnName: string)  // a caller's function; `fnName` is its `name` ("" when anonymous)
    | ModelCtor(ty: nat)               // the constructor of the model type with this id
    | BuiltinUpdate                    // the base prototype's `update` method
    | BuiltinMap                       // the base prototype's `map` method
    | BuiltinExtend                    // the base factory's `extend` static

  /** What an object's [[Prototype]] is: the plain object prototype, or the
      prototype object of a model type. */
  datatype Proto = ObjectProto | ModelProto(ty: nat)

  /** Numbers are integers here; NaN, the infinities and fractions are outside
      the value space (the number hook has its own extended numbers). */
  datatype Value =
    | Undefined
    | Null
    | Bool(b: bool)
    | Num(n: int)
    | Str(s: string)
    | Fn(f: FnRef)
    | Obj(proto: Proto, fields: map<string, Value>)

  /** How the surrounding program behaves where the modelled code calls out:
      `call` runs a caller's function on one argument, `show` is the string
      conversion of an object or function value (its `toString`). */
  datatype Host = Host(call: (nat, Value) -> Value, show: Value -> string)

  /** JavaScript truthiness. */
  predicate Truthy(v: Value) {
    match v
    case Undefined => false
    case Null => false
    case Bool(b) => b
    case Num(n) => n != 0
    case Str(s) => s != ""
    case Fn(_) => true
    case Obj(_, _) => true
  }

  predicate IsNullish(v: Value) {
    v.Undefined? || v.Null?
  }

  function DigitChar(d: nat): char
    requires d < 10
  {
    "0123456789"[d]
  }

  /** Decimal digits of a natural number, most significant first. */
  function NatToDecimal(n: nat): (r: string)
    ensures |r| > 0
    ensures forall i :: 0 <= i < |r| ==> '0' <= r[i] <= '9'
    decreases n
  {
    if n < 10 then [DigitChar(n)] else NatToDecimal(n / 10) + [DigitChar(n % 10)]
  }

  /** The own enumerable properties of an array or an argument list: each
      element under its decimal index. */
  function IndexFields(elems: seq<Value>): map<string, Value>
    decreases |elems|
  {
    if |elems| == 0 then map[]
    else IndexFields(elems[..|elems| - 1])[NatToDecimal(|elems| - 1) := elems[|elems| - 1]]
  }

  /** `String(n)` for an integer number. */
  function IntToDecimal(n: int): (r: string)
    ensures |r| > 0
  {
    if n < 0 then "-" + NatToDecimal(-n) else NatToDecimal(n)
  }

  /** The abstract operation ToString, as used by template literals and
      computed property keys. */
  function ToString(host: Host, v: Value): string {
    match v
    case Undefined => "undefined"
    case Null => "null"
    case Bool(b) => if b then "true" else "false"
    case Num(n) => IntToDecimal(n)
    case Str(s) => s
    case Fn(_) => host.show(v)
    case Obj(_, _) => host.show(v)
  }

  /** The own enumerable string-keyed fields that object spread (`{...v}`),
      `Object.assign` and `Object.entries` read from a value. Only objects
      contribute fields. Strings, whose index keys JavaScript would yield,
      and functions, whose own enumerable properties it would yield, are
      simplified to contribute none, like nullish values, numbers and
      booleans. */
  function OwnEntries(v: Value): map<string, Value> {
    if v.Obj? then v.fields else map[]
  }
}

=== FILE: model.dfy ===
/** The copy-on-write `Model` factory: a base type whose instances carry
    arbitrary fields, the `update` and `map` methods every instance inherits,
    and `extend`, which derives a new type from a receiver type.

    JavaScript prototype objects are replaced by a registry of types: a type
    is identified by its index, index 0 is the base factory, and each derived
    type records its parent's index, so prototype delegation becomes an
    explicit walk over method tables. */
module Model {
  import opened JsValues
  import opened Results

  /** The symbols prototype assembly tells apart. */
  datatype Symbol = Iterator | ToPrimitive | OtherSymbol(id: nat)

  /** A property key of a prototype table. */
  datatype Key = Named(name: string) | Sym(sym: Symbol)

  /** Property attributes of a defined (non-enumerated) property. */
  datatype Attrs = Attrs(writable: bool, enumerable: bool, configurable: bool)

  /** A property of a prototype object or of a type's constructor. */
  datatype Slot = Slot(value: Value, attrs: Attrs)

  /** A model type. The base factory has fixed tables; a derived type keeps
      its shape function, its parent, its own prototype table, its statics
      and the display name computed when it was defined. */
  datatype ModelType =
    | BaseType
    | DerivedType(shape: Value, parent: nat, proto: map<Key, Slot>, statics: map<string, Slot>, typeName: string)

  /** The optional second argument of `extend`; a missing `name` is `Undefined`
      (treated like its default `null`), missing tables are empty. */
  datatype Config = Config(name: Value, proto: map<Key, Value>, stat: map<string, Value>)

  const NoConfig := Config(Undefined, map[], map[])

  /** Every type defined so far, in order of definition. */
  type Registry = seq<ModelType>

  /** The program's state before any `extend`: only the base factory. */
  const Initial: Registry := [BaseType]

  /** The name the base factory's constructor is declared with. */
  const BaseName := "AnonymousModel"

  /** The id of the model type a value constructs, 0 for any other value. */
  function CtorRank(v: Value): nat {
    if v.Fn? && v.f.ModelCtor? then v.f.ty else 0
  }

  /** Registries built from `Initial` by `Extend`: the base sits at index 0,
      and a derived type's parent and shape only refer to earlier types. */
  predicate WellFormed(reg: Registry) {
    && |reg| > 0
    && reg[0].BaseType?
    && forall t :: 0 < t < |reg| ==> reg[t].DerivedType? && reg[t].parent < t && CtorRank(reg[t].shape) < t
  }

  const FunctionAttrs := Attrs(true, false, true)
  const FixedAttrs := Attrs(false, false, false)

  /** The descriptor `createPrototypeDescriptor` builds for a string-keyed
      prototype entry or a static: functions stay overridable, anything else
      is fixed. */
  function PrototypeDescriptor(v: Value): (s: Slot)
    ensures s.value == v
    ensures !s.attrs.enumerable
    ensures s.attrs.writable <==> v.Fn?
    ensures s.attrs.configurable <==> v.Fn?
  {
    if v.Fn? then Slot(v, FunctionAttrs) else Slot(v, FixedAttrs)
  }

  /** The descriptor of one prototype entry: string keys go through
      `PrototypeDescriptor`; the iteration symbol stays writable and
      configurable, the primitive-conversion symbol configurable only, and
      every other symbol is fixed, whatever its value. */
  function EntryDescriptor(k: Key, v: Value): Slot {
    match k
    case Named(_) => PrototypeDescriptor(v)
    case Sym(Iterator) => Slot(v, FunctionAttrs)
    case Sym(ToPrimitive) => Slot(v, Attrs(false, false, true))
    case Sym(OtherSymbol(_)) => Slot(v, FixedAttrs)
  }

  /** The own table of the prototype created for type `t`: a `constructor`
      entry pointing back at `t`, overlaid by the configured entries. */
  function OwnPrototype(t: nat, proto: map<Key, Value>): map<Key, Slot> {
    map[Named("constructor") := PrototypeDescriptor(Fn(ModelCtor(t)))]
      + map k | k in proto :: EntryDescriptor(k, proto[k])
  }

  /** The statics table: each configured static through `PrototypeDescriptor`. */
  function StaticTable(stat: map<string, Value>): map<string, Slot> {
    map k | k in stat :: PrototypeDescriptor(stat[k])
  }

  /** The base prototype: `constructor`, `update` and `map`. */
  function BasePrototype(k: Key): Option<Value> {
    if k == Named("constructor") then Some(Fn(ModelCtor(0)))
    else if k == Named("update") then Some(Fn(BuiltinUpdate))
    else if k == Named("map") then Some(Fn(BuiltinMap))
    else None
  }

  /** Type `u`'s own prototype table holds `v` at `k`. */
  predicate DefinesAt(reg: Registry, u: nat, k: Key, v: Value)
    requires u < |reg|
  {
    match reg[u]
    case BaseType => BasePrototype(k) == Some(v)
    case DerivedType(_, _, proto, _, _) => k in proto && proto[k].value == v
  }

  /** Type `u` is `t` or one of its ancestors: it is reached from `t` by
      following parent links. */
  predicate OnChain(reg: Registry, u: nat, t: nat)
    decreases t
  {
    || u == t
    || (t < |reg| && reg[t].DerivedType? && reg[t].parent < t && OnChain(reg, u, reg[t].parent))
  }

  /** Prototype-chain resolution of `k` for instances of type `t`: the type's
      own table first, then its parent's chain, ending at the base prototype.
      Members of the plain object prototype are not part of this model. */
  function Resolve(reg: Registry, t: nat, k: Key): (r: Option<Value>)
    ensures t < |reg| && reg[t].BaseType? ==> r == BasePrototype(k)
    ensures t < |reg| && reg[t].DerivedType? && k in reg[t].proto ==> r == Some(reg[t].proto[k].value)
    decreases t
  {
    if t >= |reg| then None
    else match reg[t]
      case BaseType => BasePrototype(k)
      case DerivedType(_, parent, proto, _, _) =>
        if k in proto then Some(proto[k].value)
        else if parent < t then Resolve(reg, parent, k)
        else None
  }

  /** Property read `o[k]` on an object: own fields, then the prototype chain. */
  function Get(reg: Registry, o: Value, k: string): Value
    requires o.Obj?
  {
    if k in o.fields then o.fields[k]
    else match o.proto
      case ObjectProto => Undefined
      case ModelProto(t) => Resolve(reg, t, Named(k)).GetOr(Undefined)
  }

  /** Property read `T[k]` on the constructor of type `t`. Only the statics,
      the display name and, on the base, `extend` are visible; a derived
      constructor does not inherit its parent's statics. */
  function Static(reg: Registry, t: nat, k: string): (r: Value)
    requires t < |reg|
    ensures reg[t].BaseType? ==> (r.Undefined? <==> k != "extend" && k != "name")
    ensures reg[t].DerivedType? && k in reg[t].statics ==> r == reg[t].statics[k].value
    ensures reg[t].DerivedType? && k !in reg[t].statics ==> (r.Undefined? <==> k != "name")
    ensures k == "name" && (reg[t].BaseType? || k !in reg[t].statics) ==> r.Str?
  {
    match reg[t]
    case BaseType =>
      if k == "extend" then Fn(BuiltinExtend)
      else if k == "name" then Str(BaseName)
      else Undefined
    case DerivedType(_, _, _, statics, typeName) =>
      if k in statics then statics[k].value
      else if k == "name" then Str(typeName)
      else Undefined
  }

  /** The read `ctor.name` on the value passed to `extend` as its shape. */
  function NameOf(reg: Registry, v: Value): Result<Value> {
    match v
    case Undefined => Err(TypeError("Cannot read properties of undefined (reading 'name')"))
    case Null => Err(TypeError("Cannot read properties of null (reading 'name')"))
    case Fn(UserFn(_, n)) => Ok(Str(n))
    case Fn(ModelCtor(t)) => Ok(if t < |reg| then Static(reg, t, "name") else Undefined)
    case Fn(BuiltinUpdate) => Ok(Str("update"))
    case Fn(BuiltinMap) => Ok(Str("map"))
    case Fn(BuiltinExtend) => Ok(Str("extend"))
    case Obj(_, _) => Ok(Get(reg, v, "name"))
    case _ => Ok(Undefined)
  }

  /** Calling a value with one argument where the receiver plays no part.
      Shape functions and `map` functions are called with no receiver, and
      the builtin methods then fail reading a property of `undefined`. An
      `update` callback gets the argument list as its receiver: model
      constructors, being arrow functions, ignore it, and the builtin `map`
      and `extend` fail on it as well (an object is not callable; the list
      has no `prototype`). The builtin `update` as a callback does not fail;
      `UpdateFields` handles it. */
  function Call(reg: Registry, host: Host, f: Value, arg: Value): (r: Result<Value>)
    requires WellFormed(reg)
    ensures f.Fn? && f.f.ModelCtor? && r.Ok? ==> r.value.Obj? && r.value.proto == ModelProto(f.f.ty)
    decreases CtorRank(f), 1
  {
    match f
    case Fn(UserFn(id, _)) => Ok(host.call(id, arg))
    case Fn(ModelCtor(t)) =>
      if t < |reg| then Construct(reg, host, t, arg) else Err(TypeError("not a function"))
    case Fn(_) => Err(TypeError("Cannot read properties of undefined"))
    case _ => Err(TypeError("is not a function"))
  }

  /** Invoking the constructor of type `t` on `data` (defaulting to `{}`).
      The base copies the data's fields onto a new instance; a derived type
      runs its shape function and defines the entries of its result. */
  function Construct(reg: Registry, host: Host, t: nat, data: Value): (r: Result<Value>)
    requires WellFormed(reg) && t < |reg|
    ensures r.Ok? ==> r.value.Obj? && r.value.proto == ModelProto(t)
    ensures t == 0 ==> r == Ok(Obj(ModelProto(0), OwnEntries(data)))
    decreases t, 0
  {
    var input := if data.Undefined? then Obj(ObjectProto, map[]) else data;
    match reg[t]
    case BaseType => Ok(Obj(ModelProto(t), OwnEntries(input)))
    case DerivedType(shape, _, _, _, _) =>
      var out :- Call(reg, host, shape, input);
      if IsNullish(out) then Err(TypeError("Cannot convert undefined or null to object"))
      else Ok(Obj(ModelProto(t), OwnEntries(out)))
  }

  /** The fields `update` merges over the receiver, chosen by call shape in
      the source's order: exactly two arguments name a field and its value
      (the first is converted to a key, never called); otherwise a function
      first argument is called on the receiver; otherwise the first argument
      (possibly missing) is read as an object. */
  function UpdateFields(reg: Registry, host: Host, self: Value, args: seq<Value>): (r: Result<map<string, Value>>)
    requires WellFormed(reg) && self.Obj?
    ensures r.Err? ==> |args| != 2 && |args| > 0 && args[0].Fn? && args[0] != Fn(BuiltinUpdate)
    ensures |args| != 2 && |args| > 0 && args[0] == Fn(BuiltinUpdate) ==>
      && r.Ok? && r.value.Keys == {"0"}
      && r.value["0"].Obj? && r.value["0"].proto == ObjectProto
      && r.value["0"].fields.Keys == IndexFields(args).Keys + self.fields.Keys
      && forall j :: j in self.fields ==> r.value["0"].fields[j] == self.fields[j]
    ensures |args| == 2 ==> r.Ok? && r.value.Keys == {ToString(host, args[0])} && r.value[ToString(host, args[0])] == args[1]
    ensures |args| != 2 && (|args| == 0 || IsNullish(args[0])) ==> r == Ok(map[])
    ensures |args| > 2 && args[0] != Fn(BuiltinUpdate) ==> r == UpdateFields(reg, host, self, args[..1])
  {
    if |args| == 2 then Ok(map[ToString(host, args[0]) := args[1]])
    else
      var first := if |args| == 0 then Undefined else args[0];
      if first == Fn(BuiltinUpdate) then
        // `args[0](this)` runs `update` with the argument list as receiver
        // and the instance as its one argument, an object: it merges the
        // instance over the list's index keys and rebuilds through
        // `args.constructor`, which is `Array`, giving a one-element array.
        Ok(map["0" := Obj(ObjectProto, IndexFields(args) + self.fields)])
      else if first.Fn? then
        var out :- Call(reg, host, first, self);
        Ok(OwnEntries(out))
      else Ok(OwnEntries(first))
  }

  /** The depth of nested calls at which the engine's call stack overflows.
      The real depth depends on the engine and on frame sizes; the model only
      needs it to be finite. */
  const CallStackLimit: nat := 10000

  /** `this.constructor(arg)` inside `update` and `map`: a call whose
      receiver is the instance. Model constructors and caller functions do
      not read their receiver. The builtin methods run on the instance and
      never yield a value: `update` and `map` call `this.constructor`, that is
      themselves, again, and `extend` reads the instance's `prototype`. */
  function CallOnInstance(reg: Registry, host: Host, f: Value, self: Value, arg: Value): (r: Result<Value>)
    requires WellFormed(reg) && self.Obj?
    ensures f.Fn? && f.f.ModelCtor? && r.Ok? ==> r.value.Obj? && r.value.proto == ModelProto(f.f.ty)
    ensures r.Ok? ==> f.Fn? && (f.f.ModelCtor? || f.f.UserFn?)
    ensures f.Fn? && f.f.UserFn? ==> r == Ok(host.call(f.f.id, arg))
  {
    match f
    case Fn(BuiltinUpdate) =>
      // One argument: the fields are merged and `this.constructor`, still
      // `update`, is called again on a plain object, which cannot fail.
      var _ :- UpdateFields(reg, host, self, [arg]);
      Err(RangeError("Maximum call stack size exceeded"))
    case Fn(BuiltinMap) => MapOnInstance(reg, host, self, arg, CallStackLimit)
    case Fn(BuiltinExtend) => Err(TypeError("Object prototype may only be an Object or null"))
    case _ => Call(reg, host, f, arg)
  }

  /** `self.map(v)` where `self.constructor` is `map` itself: a function `v`
      is called on the instance and its result goes to `map` again, up to
      `depth` more times; any other value ends the chain, because either it
      or, for a missing `v`, the instance is then called. */
  function MapOnInstance(reg: Registry, host: Host, self: Value, v: Value, depth: nat): (r: Result<Value>)
    requires WellFormed(reg) && self.Obj?
    ensures r.Err?
    ensures !v.Fn? ==> r.error.TypeError?
    decreases depth
  {
    if !v.Fn? then Err(TypeError("fn is not a function"))
    else if depth == 0 then Err(RangeError("Maximum call stack size exceeded"))
    else
      var w :- Call(reg, host, v, self);
      MapOnInstance(reg, host, self, w, depth - 1)
  }

  /** `self.update(...args)`: merges the new fields over the receiver's and
      rebuilds through the receiver's `constructor`, whatever that property
      holds: the result is an instance of the type it names, and only a model
      constructor or a caller's function can rebuild at all. */
  function Update(reg: Registry, host: Host, self: Value, args: seq<Value>): (r: Result<Value>)
    requires WellFormed(reg) && self.Obj?
    ensures var c := Get(reg, self, "constructor");
      r.Ok? ==> c.Fn? && (c.f.ModelCtor? || c.f.UserFn?)
    ensures var c := Get(reg, self, "constructor");
      r.Ok? && c.Fn? && c.f.ModelCtor? ==> r.value.Obj? && r.value.proto == ModelProto(c.f.ty)
    ensures UpdateFields(reg, host, self, args).Err? ==> r.Err?
  {
    var newFields :- UpdateFields(reg, host, self, args);
    CallOnInstance(reg, host, Get(reg, self, "constructor"), self, Obj(ObjectProto, self.fields + newFields))
  }

  /** `self.map(fn)`: rebuilds through the receiver's `constructor` from
      `fn(self)`; a missing `fn` is the identity. As for `update`, the result
      is an instance of the type `constructor` names. */
  function Map(reg: Registry, host: Host, self: Value, args: seq<Value>): (r: Result<Value>)
    requires WellFormed(reg) && self.Obj?
    ensures var c := Get(reg, self, "constructor");
      r.Ok? ==> c.Fn? && (c.f.ModelCtor? || c.f.UserFn?)
    ensures var c := Get(reg, self, "constructor");
      r.Ok? && c.Fn? && c.f.ModelCtor? ==> r.value.Obj? && r.value.proto == ModelProto(c.f.ty)
  {
    var fn := if |args| == 0 then Undefined else args[0];
    var replacement :- if fn.Undefined? then Ok(self) else Call(reg, host, fn, self);
    CallOnInstance(reg, host, Get(reg, self, "constructor"), self, replacement)
  }

  /** The label in front of the `Model` suffix: the configured name if truthy,
      else the shape's own name if truthy, else `Unnamed`. The shape's name is
      read only when the configured one is falsy. */
  function NameSource(reg: Registry, configName: Value, ctor: Value): (r: Result<Value>)
    ensures Truthy(configName) ==> r == Ok(configName)
    ensures r.Ok? ==> Truthy(r.value)
    ensures r.Err? <==> !Truthy(configName) && IsNullish(ctor)
  {
    if Truthy(configName) then Ok(configName)
    else
      var n :- NameOf(reg, ctor);
      Ok(if Truthy(n) then n else Str("Unnamed"))
  }

  /** `Receiver.extend(ctor, config)` where `receiver` is the id of the type
      the method is invoked on: defines a new type whose parent is the
      receiver, and returns the grown registry and the new type's id. */
  function Extend(reg: Registry, host: Host, receiver: nat, ctor: Value, config: Config): (r: Result<(Registry, nat)>)
    requires WellFormed(reg) && receiver < |reg| && CtorRank(ctor) < |reg|
    ensures r.Ok? ==> WellFormed(r.value.0)
    ensures r.Ok? ==> r.value.1 == |reg| && |r.value.0| == |reg| + 1 && r.value.0[..|reg|] == reg
    ensures r.Ok? ==> r.value.0[|reg|].DerivedType? && r.value.0[|reg|].parent == receiver && r.value.0[|reg|].shape == ctor
    ensures r.Err? <==> !Truthy(config.name) && IsNullish(ctor)
  {
    var t := |reg|;
    var source :- NameSource(reg, config.name, ctor);
    var ty := DerivedType(ctor, receiver, OwnPrototype(t, config.proto), StaticTable(config.stat),
                          ToString(host, source) + "Model");
    Ok((reg + [ty], t))
  }
}

=== FILE: model_laws.dfy ===
/** Properties of the `Model` factory: what each call shape of `update` does,
    that `update` and `map` rebuild through the receiver's own type, how
    `extend` names types, chains prototypes and attaches statics. */
module ModelLaws {
  import opened JsValues
  import opened Results
  import opened Model

  /** Type `t`'s prototype chain resolves `constructor` to `t` itself, which
      holds unless some configured prototype overrides `constructor`. */
  predicate RebuildsAsOwnType(reg: Registry, t: nat) {
    Resolve(reg, t, Named("constructor")) == Some(Fn(ModelCtor(t)))
  }

  /** An instance of type `t` whose `constructor` is `t`'s constructor: it
      has `t`'s prototype and no own field shadowing `constructor`. */
  predicate InstanceOf(reg: Registry, v: Value, t: nat) {
    && v.Obj?
    && v.proto == ModelProto(t)
    && "constructor" !in v.fields
    && RebuildsAsOwnType(reg, t)
  }

  /** No type on `t`'s chain, other than the base, defines `k` itself. */
  predicate Inherits(reg: Registry, t: nat, k: Key)
    decreases t
  {
    && t < |reg|
    && match reg[t]
       case BaseType => true
       case DerivedType(_, parent, proto, _, _) => k !in proto && parent < t && Inherits(reg, parent, k)
  }

  // ---------------------------------------------------------------- base type

  /** The base constructor's instance holds exactly the given data (none
      when the data is missing), has the base prototype, and finds `update`,
      `map` and `constructor` there unless a field of the same name shadows
      them. */
  lemma BaseConstructorHoldsData(reg: Registry, host: Host, data: Value)
    requires WellFormed(reg)
    ensures Construct(reg, host, 0, data).Ok?
    ensures var v := Construct(reg, host, 0, data).value;
      && v.proto == ModelProto(0)
      && v.fields == OwnEntries(data)
      && (data.Undefined? ==> v.fields == map[])
      && ("update" !in v.fields ==> Get(reg, v, "update") == Fn(BuiltinUpdate))
      && ("map" !in v.fields ==> Get(reg, v, "map") == Fn(BuiltinMap))
      && ("constructor" !in v.fields ==> InstanceOf(reg, v, 0))
  {
  }

  // ------------------------------------------------------------------ update

  /** Exactly two arguments name a field and its value, whatever the type of
      the first; the merged fields are rebuilt through the receiver's type. */
  lemma UpdateTwoArguments(reg: Registry, host: Host, self: Value, t: nat, args: seq<Value>)
    requires WellFormed(reg) && t < |reg| && InstanceOf(reg, self, t)
    requires |args| == 2
    ensures Update(reg, host, self, args)
         == Construct(reg, host, t, Obj(ObjectProto, self.fields[ToString(host, args[0]) := args[1]]))
  {
    assert self.fields + map[ToString(host, args[0]) := args[1]] == self.fields[ToString(host, args[0]) := args[1]];
  }

  /** On a base instance the two-argument form sets one field and leaves every
      other field as it was. A function given first is only turned into a
      key by its string conversion: `host.call` does not occur in the result. */
  lemma UpdateTwoArgumentsOnBase(reg: Registry, host: Host, self: Value, key: Value, value: Value)
    requires WellFormed(reg) && InstanceOf(reg, self, 0)
    ensures var r := Update(reg, host, self, [key, value]);
      && r.Ok? && r.value.proto == ModelProto(0)
      && r.value.fields.Keys == self.fields.Keys + {ToString(host, key)}
      && r.value.fields[ToString(host, key)] == value
      && (forall j :: j in self.fields && j != ToString(host, key) ==> r.value.fields[j] == self.fields[j])
    ensures key.Fn? ==> Update(reg, host, self, [key, value]) == Ok(Obj(ModelProto(0), self.fields[host.show(key) := value]))
  {
    UpdateTwoArguments(reg, host, self, 0, [key, value]);
  }

  /** One function argument is called on the receiver and its result's
      fields are merged over the receiver's, then rebuilt through its type. */
  lemma UpdateWithFunction(reg: Registry, host: Host, self: Value, t: nat, id: nat, fnName: string)
    requires WellFormed(reg) && t < |reg| && InstanceOf(reg, self, t)
    ensures Update(reg, host, self, [Fn(UserFn(id, fnName))])
         == Construct(reg, host, t, Obj(ObjectProto, self.fields + OwnEntries(host.call(id, self))))
  {
  }

  /** On a base instance the function form is a right-biased merge with the
      function's result: its keys win, new keys are added, the rest stay. */
  lemma UpdateWithFunctionOnBase(reg: Registry, host: Host, self: Value, id: nat, fnName: string)
    requires WellFormed(reg) && InstanceOf(reg, self, 0)
    ensures var r := Update(reg, host, self, [Fn(UserFn(id, fnName))]);
      var out := OwnEntries(host.call(id, self));
      && r.Ok? && r.value.proto == ModelProto(0)
      && r.value.fields.Keys == self.fields.Keys + out.Keys
      && (forall j :: j in out ==> r.value.fields[j] == out[j])
      && (forall j :: j in self.fields && j !in out ==> r.value.fields[j] == self.fields[j])
  {
    UpdateWithFunction(reg, host, self, 0, id, fnName);
  }

  /** Any other call shape reads the first argument as an object (a missing
      or nullish one contributes no fields, extra arguments are ignored) and
      merges its fields over the receiver's, rebuilt through its type. */
  lemma UpdateMergesObject(reg: Registry, host: Host, self: Value, t: nat, args: seq<Value>)
    requires WellFormed(reg) && t < |reg| && InstanceOf(reg, self, t)
    requires |args| != 2 && (|args| == 0 || !args[0].Fn?)
    ensures var partial := if |args| == 0 then map[] else OwnEntries(args[0]);
      Update(reg, host, self, args) == Construct(reg, host, t, Obj(ObjectProto, self.fields + partial))
  {
  }

  /** On a base instance, `update(partial)` is a right-biased merge. */
  lemma UpdateMergesObjectOnBase(reg: Registry, host: Host, self: Value, partial: map<string, Value>)
    requires WellFormed(reg) && InstanceOf(reg, self, 0)
    ensures var r := Update(reg, host, self, [Obj(ObjectProto, partial)]);
      && r.Ok? && r.value.proto == ModelProto(0)
      && r.value.fields.Keys == self.fields.Keys + partial.Keys
      && (forall j :: j in partial ==> r.value.fields[j] == partial[j])
      && (forall j :: j in self.fields && j !in partial ==> r.value.fields[j] == self.fields[j])
  {
    UpdateMergesObject(reg, host, self, 0, [Obj(ObjectProto, partial)]);
  }

  /** `inst.update(inst.update)`: the builtin `update` given as its own
      callback runs with the argument list as receiver and returns a
      one-element array, so the outer merge sets field `0` to a plain object
      holding the callback under `0` and the instance's fields over it. */
  lemma UpdateWithItselfOnBase(reg: Registry, host: Host, self: Value)
    requires WellFormed(reg) && InstanceOf(reg, self, 0)
    ensures Update(reg, host, self, [Fn(BuiltinUpdate)])
         == Ok(Obj(ModelProto(0), self.fields["0" := Obj(ObjectProto, map["0" := Fn(BuiltinUpdate)] + self.fields)]))
  {
    assert NatToDecimal(0) == "0";
    assert IndexFields([Fn(BuiltinUpdate)]) == map["0" := Fn(BuiltinUpdate)];
    var inner := Obj(ObjectProto, map["0" := Fn(BuiltinUpdate)] + self.fields);
    assert self.fields + map["0" := inner] == self.fields["0" := inner];
  }

  /** `update()` raises no error: on a base instance it yields an equal
      instance, on a derived one it reruns the shape on the same fields. */
  lemma UpdateWithoutArguments(reg: Registry, host: Host, self: Value, t: nat)
    requires WellFormed(reg) && t < |reg| && InstanceOf(reg, self, t)
    ensures Update(reg, host, self, []) == Construct(reg, host, t, Obj(ObjectProto, self.fields))
    ensures t == 0 ==> Update(reg, host, self, []) == Ok(self)
  {
    UpdateMergesObject(reg, host, self, t, []);
    assert self.fields + map[] == self.fields;
  }

  /** `update` keeps the receiver's type, for every call shape and every type
      whose `constructor` is its own. */
  lemma UpdateKeepsType(reg: Registry, host: Host, self: Value, t: nat, args: seq<Value>)
    requires WellFormed(reg) && t < |reg| && InstanceOf(reg, self, t)
    ensures var r := Update(reg, host, self, args); r.Ok? ==> r.value.Obj? && r.value.proto == ModelProto(t)
  {
    var r := Update(reg, host, self, args);
    if r.Ok? {
      var newFields := UpdateFields(reg, host, self, args);
      assert newFields.Ok?;
      assert Get(reg, self, "constructor") == Fn(ModelCtor(t));
      assert r == Call(reg, host, Fn(ModelCtor(t)), Obj(ObjectProto, self.fields + newFields.value));
    }
  }

  // --------------------------------------------------------------------- map

  /** `map()` defaults to the identity: the receiver is rebuilt through its
      own type, which on a base instance gives back an equal instance. */
  lemma MapDefaultsToIdentity(reg: Registry, host: Host, self: Value, t: nat)
    requires WellFormed(reg) && t < |reg| && InstanceOf(reg, self, t)
    ensures Map(reg, host, self, []) == Construct(reg, host, t, self)
    ensures Map(reg, host, self, [Undefined]) == Construct(reg, host, t, self)
    ensures t == 0 ==> Map(reg, host, self, []) == Ok(self)
  {
  }

  /** `map(fn)` replaces rather than merges: the new instance is built from
      `fn(self)` alone, through the receiver's type. */
  lemma MapReplaces(reg: Registry, host: Host, self: Value, t: nat, id: nat, fnName: string)
    requires WellFormed(reg) && t < |reg| && InstanceOf(reg, self, t)
    ensures Map(reg, host, self, [Fn(UserFn(id, fnName))]) == Construct(reg, host, t, host.call(id, self))
    ensures t == 0 ==> Map(reg, host, self, [Fn(UserFn(id, fnName))])
                       == Ok(Obj(ModelProto(0), OwnEntries(host.call(id, self))))
  {
  }

  /** `map` keeps the receiver's type. */
  lemma MapKeepsType(reg: Registry, host: Host, self: Value, t: nat, args: seq<Value>)
    requires WellFormed(reg) && t < |reg| && InstanceOf(reg, self, t)
    ensures var r := Map(reg, host, self, args); r.Ok? ==> r.value.Obj? && r.value.proto == ModelProto(t)
  {
    var r := Map(reg, host, self, args);
    if r.Ok? {
      assert Get(reg, self, "constructor") == Fn(ModelCtor(t));
    }
  }

  // ----------------------------------------------------------------- derived

  /** A derived constructor defaults missing data to `{}`, runs the shape
      once, and the instance's own fields are exactly the entries of the
      shape's result; a nullish result is a `TypeError`. */
  lemma DerivedConstructorRunsShape(reg: Registry, host: Host, t: nat, id: nat, fnName: string, data: Value)
    requires WellFormed(reg) && 0 < t < |reg| && reg[t].shape == Fn(UserFn(id, fnName))
    ensures var out := host.call(id, if data.Undefined? then Obj(ObjectProto, map[]) else data);
      Construct(reg, host, t, data)
        == if IsNullish(out) then Err(TypeError("Cannot convert undefined or null to object"))
           else Ok(Obj(ModelProto(t), OwnEntries(out)))
  {
  }

  /** Registries only grow: a type defined earlier resolves every key the
      same way after another type is appended. */
  lemma {:induction false} ResolveSurvivesGrowth(reg: Registry, extra: ModelType, t: nat, k: Key)
    requires t < |reg|
    ensures Resolve(reg + [extra], t, k) == Resolve(reg, t, k)
    decreases t
  {
    var grown := reg + [extra];
    assert grown[t] == reg[t];
    match reg[t] {
      case BaseType =>
      case DerivedType(_, parent, proto, _, _) =>
        if k !in proto && parent < t {
          ResolveSurvivesGrowth(reg, extra, parent, k);
        }
    }
  }

  /** Whatever a type resolves is defined in the own table of the type or of
      one of its ancestors along the parent links. */
  lemma {:induction false} ResolvedOnChain(reg: Registry, t: nat, k: Key)
    requires Resolve(reg, t, k).Some?
    ensures exists u: nat :: u < |reg| && OnChain(reg, u, t) && DefinesAt(reg, u, k, Resolve(reg, t, k).value)
    decreases t
  {
    var v := Resolve(reg, t, k).value;
    match reg[t] {
      case BaseType =>
        assert DefinesAt(reg, t, k, v);
      case DerivedType(_, parent, proto, _, _) =>
        if k in proto {
          assert DefinesAt(reg, t, k, v);
        } else {
          ResolvedOnChain(reg, parent, k);
          var u: nat :| u < |reg| && OnChain(reg, u, parent) && DefinesAt(reg, u, k, v);
          assert OnChain(reg, u, t);
        }
    }
  }

  /** Conversely, a key that the type or one of its ancestors defines always
      resolves. */
  lemma {:induction false} ChainDefinitionResolves(reg: Registry, t: nat, u: nat, k: Key, v: Value)
    requires t < |reg| && u < |reg| && OnChain(reg, u, t) && DefinesAt(reg, u, k, v)
    ensures Resolve(reg, t, k).Some?
    decreases t
  {
    if u != t {
      match reg[t] {
        case BaseType =>
        case DerivedType(_, parent, proto, _, _) =>
          if k !in proto {
            ChainDefinitionResolves(reg, parent, u, k, v);
          }
      }
    }
  }

  /** Method lookup on a new type: its configured entries first, then its own
      `constructor`, then whatever the receiver type resolves. */
  lemma ExtendResolves(reg: Registry, host: Host, receiver: nat, ctor: Value, config: Config, k: Key)
    requires WellFormed(reg) && receiver < |reg| && CtorRank(ctor) < |reg|
    requires Extend(reg, host, receiver, ctor, config).Ok?
    ensures var (grown, t) := Extend(reg, host, receiver, ctor, config).value;
      Resolve(grown, t, k)
        == if k in config.proto then Some(config.proto[k])
           else if k == Named("constructor") then Some(Fn(ModelCtor(t)))
           else Resolve(reg, receiver, k)
  {
    var (grown, t) := Extend(reg, host, receiver, ctor, config).value;
    assert grown == reg + [grown[t]];
    var own := OwnPrototype(t, config.proto);
    if k !in own {
      ResolveSurvivesGrowth(reg, grown[t], receiver, k);
    }
  }

  /** A new type rebuilds as itself unless its configuration overrides
      `constructor`; the base always does. */
  lemma ExtendRebuildsAsOwnType(reg: Registry, host: Host, receiver: nat, ctor: Value, config: Config)
    requires WellFormed(reg) && receiver < |reg| && CtorRank(ctor) < |reg|
    requires Extend(reg, host, receiver, ctor, config).Ok?
    requires Named("constructor") !in config.proto
    ensures RebuildsAsOwnType(reg, 0)
    ensures var (grown, t) := Extend(reg, host, receiver, ctor, config).value; RebuildsAsOwnType(grown, t)
  {
    ExtendResolves(reg, host, receiver, ctor, config, Named("constructor"));
  }

  /** A key that no derived type on the chain defines resolves to the base
      prototype's entry, however deep the chain. */
  lemma {:induction false} InheritedFromBase(reg: Registry, t: nat, k: Key)
    requires Inherits(reg, t, k)
    ensures Resolve(reg, t, k) == BasePrototype(k)
    decreases t
  {
    match reg[t] {
      case BaseType =>
      case DerivedType(_, parent, _, _, _) =>
        InheritedFromBase(reg, parent, k);
    }
  }

  /** Statics are own properties of the new constructor only: a configured
      static is visible there, a key it does not configure is not inherited
      from the receiver (so a derived constructor has no `extend`), and the
      receiver's statics are unchanged. */
  lemma ExtendStatics(reg: Registry, host: Host, receiver: nat, ctor: Value, config: Config, k: string)
    requires WellFormed(reg) && receiver < |reg| && CtorRank(ctor) < |reg|
    requires Extend(reg, host, receiver, ctor, config).Ok?
    ensures var (grown, t) := Extend(reg, host, receiver, ctor, config).value;
      && (k in config.stat ==> Static(grown, t, k) == config.stat[k])
      && (k !in config.stat && k != "name" ==> Static(grown, t, k) == Undefined)
      && Static(grown, receiver, k) == Static(reg, receiver, k)
  {
    var (grown, t) := Extend(reg, host, receiver, ctor, config).value;
    assert grown[receiver] == reg[receiver];
  }

  /** The display name is the configured name if truthy, else the shape's
      own name if truthy, else `Unnamed`, always followed by `Model`; the
      shape's name is only read, and can only fail, when no name is given. */
  lemma ExtendNaming(reg: Registry, host: Host, receiver: nat, ctor: Value, config: Config)
    requires WellFormed(reg) && receiver < |reg| && CtorRank(ctor) < |reg|
    requires "name" !in config.stat
    ensures var r := Extend(reg, host, receiver, ctor, config);
      && (Truthy(config.name) ==> r.Ok? && Static(r.value.0, r.value.1, "name") == Str(ToString(host, config.name) + "Model"))
      && (!Truthy(config.name) && ctor.Fn? && ctor.f.UserFn? ==>
            r.Ok? && Static(r.value.0, r.value.1, "name")
                     == Str((if ctor.f.fnName != "" then ctor.f.fnName else "Unnamed") + "Model"))
  {
  }

  /** Prototype entries are never enumerable. String-keyed functions and the
      iteration symbol stay writable and configurable, the primitive
      conversion symbol is configurable only, and every other entry is fixed. */
  lemma ExtendDescriptors(reg: Registry, host: Host, receiver: nat, ctor: Value, config: Config, k: Key)
    requires WellFormed(reg) && receiver < |reg| && CtorRank(ctor) < |reg|
    requires Extend(reg, host, receiver, ctor, config).Ok?
    requires k in config.proto
    ensures var (grown, t) := Extend(reg, host, receiver, ctor, config).value;
      var a := grown[t].proto[k].attrs;
      && !a.enumerable
      && (a.writable <==> (k.Named? && config.proto[k].Fn?) || k == Sym(Iterator))
      && (a.configurable <==> (k.Named? && config.proto[k].Fn?) || k == Sym(Iterator) || k == Sym(ToPrimitive))
  {
  }

  // ---------------------------------------------------------------- examples

  /** Reads field `k`, falling back to `default` when it is missing or
      `undefined`, as a destructuring default does. */
  function Pick(fields: map<string, Value>, k: string, default: Value): Value {
    if k in fields && !fields[k].Undefined? then fields[k] else default
  }

  /** The `User` shape function of the factory's tests, with its random
      default id fixed to `seed`. */
  function UserShape(seed: string, data: Value): Value {
    var f := OwnEntries(data);
    Obj(ObjectProto, map[
      "id" := Pick(f, "id", Str(seed)),
      "username" := Pick(f, "username", Str("anonymous")),
      "email" := Pick(f, "email", Str("nobody@example.com"))])
  }

  function UserHost(seed: string): Host {
    Host((id, v) => UserShape(seed, v), v => "")
  }

  /** `User = Model.extend(function User(...))` is named `UserModel`, and
      `User().update({id: '12345'})` equals `User({id: '12345'})`: the merge
      is fed back through the shape. */
  lemma UserUpdateRebuilds(seed: string)
    ensures var host := UserHost(seed);
      var r := Extend(Initial, host, 0, Fn(UserFn(0, "User")), NoConfig);
      && r.Ok? && r.value.1 == 1
      && Static(r.value.0, 1, "name") == Str("UserModel")
      && var blank := Construct(r.value.0, host, 1, Undefined);
         var patch := Obj(ObjectProto, map["id" := Str("12345")]);
         && blank.Ok?
         && Update(r.value.0, host, blank.value, [patch]) == Construct(r.value.0, host, 1, patch)
  {
    var host := UserHost(seed);
    var ctor := Fn(UserFn(0, "User"));
    var ty := DerivedType(ctor, 0, OwnPrototype(1, map[]), StaticTable(map[]), "UserModel");
    var reg := Initial + [ty];
    assert NameSource(Initial, Undefined, ctor) == Ok(Str("User"));
    assert ToString(host, Str("User")) + "Model" == "UserModel";
    assert Extend(Initial, host, 0, ctor, NoConfig) == Ok((reg, 1));
    ExtendRebuildsAsOwnType(Initial, host, 0, ctor, NoConfig);
    var blankFields := map["id" := Str(seed), "username" := Str("anonymous"), "email" := Str("nobody@example.com")];
    UserConstructs(seed, reg, Obj(ObjectProto, map[]));
    assert Construct(reg, host, 1, Undefined) == Ok(Obj(ModelProto(1), blankFields));
    var blank := Obj(ModelProto(1), blankFields);
    var patch := Obj(ObjectProto, map["id" := Str("12345")]);
    UpdateMergesObject(reg, host, blank, 1, [patch]);
    var merged := blankFields + map["id" := Str("12345")];
    assert Update(reg, host, blank, [patch]) == Construct(reg, host, 1, Obj(ObjectProto, merged));
    UserConstructs(seed, reg, Obj(ObjectProto, merged));
    UserConstructs(seed, reg, patch);
  }

  /** What the `User` type builds from an object. */
  lemma UserConstructs(seed: string, reg: Registry, data: Value)
    requires WellFormed(reg) && |reg| == 2 && reg[1].DerivedType? && reg[1].shape == Fn(UserFn(0, "User"))
    requires data.Obj?
    ensures Construct(reg, UserHost(seed), 1, data) == Ok(Obj(ModelProto(1), UserShape(seed, data).fields))
  {
    DerivedConstructorRunsShape(reg, UserHost(seed), 1, 0, "User", data);
  }

  /** The naming cases of the factory's tests, and the one failure: with no
      name configured, reading the name of a missing shape raises. */
  lemma NamingExamples(host: Host)
    ensures var r := Extend(Initial, host, 0, Fn(UserFn(0, "Foo")), Config(Str("Bar"), map[], map[]));
      r.Ok? && Static(r.value.0, 1, "name") == Str("BarModel")
    ensures var r := Extend(Initial, host, 0, Fn(UserFn(0, "")), NoConfig);
      r.Ok? && Static(r.value.0, 1, "name") == Str("UnnamedModel")
    ensures Extend(Initial, host, 0, Undefined, NoConfig).Err?
    ensures Extend(Initial, host, 0, Undefined, Config(Str("Bar"), map[], map[])).Ok?
  {
    assert "Bar" + "Model" == "BarModel";
    assert "Unnamed" + "Model" == "UnnamedModel";
  }

  /** A method defined only on the base is found on an instance of a type
      three derivations below it. */
  lemma ThirdGenerationFindsBaseMethod(host: Host)
    ensures var r1 := Extend(Initial, host, 0, Fn(UserFn(1, "A")), NoConfig);
      && r1.Ok?
      && var r2 := Extend(r1.value.0, host, 1, Fn(UserFn(2, "B")), NoConfig);
      && r2.Ok?
      && var r3 := Extend(r2.value.0, host, 2, Fn(UserFn(3, "C")), NoConfig);
      && r3.Ok? && r3.value.1 == 3
      && Resolve(r3.value.0, 3, Named("update")) == Some(Fn(BuiltinUpdate))
  {
    var r1 := Extend(Initial, host, 0, Fn(UserFn(1, "A")), NoConfig);
    var r2 := Extend(r1.value.0, host, 1, Fn(UserFn(2, "B")), NoConfig);
    var r3 := Extend(r2.value.0, host, 2, Fn(UserFn(3, "C")), NoConfig);
    var reg := r3.value.0;
    assert Inherits(reg, 0, Named("update"));
    assert Inherits(reg, 1, Named("update"));
    assert Inherits(reg, 2, Named("update"));
    InheritedFromBase(reg, 3, Named("update"));
  }
}

=== FILE: number_state.dfy ===
/** The state updaters of `useNumberState` as a state machine. Numbers are
    integers extended with the three non-finite values the initialisation
    guard rejects; their arithmetic follows IEEE 754 on those values. */
module NumberState {
  import opened Results

  datatype Number = Finite(n: int) | NaN | PosInf | NegInf

  /** `a + b`: NaN absorbs everything, opposite infinities give NaN. */
  function Add(a: Number, b: Number): Number {
    match (a, b)
    case (Finite(x), Finite(y)) => Finite(x + y)
    case (NaN, _) => NaN
    case (_, NaN) => NaN
    case (PosInf, NegInf) => NaN
    case (NegInf, PosInf) => NaN
    case (PosInf, _) => PosInf
    case (NegInf, _) => NegInf
    case (_, PosInf) => PosInf
    case (_, NegInf) => NegInf
  }

  /** Unary `-`. */
  function Negate(a: Number): Number {
    match a
    case Finite(x) => Finite(-x)
    case NaN => NaN
    case PosInf => NegInf
    case NegInf => PosInf
  }

  datatype State = State(current: Number, initial: Number)

  const One := Finite(1)

  /** The guard every render runs on its initial-state argument: NaN and the
      two infinities raise a `TypeError`; an omitted argument is 0. */
  function CheckInitial(initialArg: Option<Number>): (r: Result<Number>)
    ensures r.Err? <==> initialArg.Some? && !initialArg.value.Finite?
    ensures r.Err? ==> r.error.TypeError?
    ensures r.Ok? ==> r.value == initialArg.GetOr(Finite(0))
  {
    var initial := initialArg.GetOr(Finite(0));
    if initial.NaN? || initial == PosInf || initial == NegInf then
      Err(TypeError("useNumberState(): Initial value cannot be NaN, positive Infinity, or Negative Infinity"))
    else Ok(initial)
  }

  /** The first render. */
  function Init(initialArg: Option<Number>): (r: Result<State>)
    ensures r.Err? <==> initialArg.Some? && !initialArg.value.Finite?
    ensures r.Ok? ==> r.value.current == r.value.initial && r.value.current.Finite?
    ensures r.Ok? ==> r.value.current == initialArg.GetOr(Finite(0))
  {
    var initial :- CheckInitial(initialArg);
    Ok(State(initial, initial))
  }

  /** `inc(delta)` adds `delta`, which defaults to 1. */
  function Inc(s: State, delta: Option<Number>): (r: State)
    ensures r.initial == s.initial
    ensures s.current.Finite? && delta.None? ==> r.current == Finite(s.current.n + 1)
    ensures s.current.Finite? && delta.Some? && delta.value.Finite? ==> r.current == Finite(s.current.n + delta.value.n)
  {
    State(Add(s.current, delta.GetOr(One)), s.initial)
  }

  /** `dec` as written: its updater reads `incValue`, which is not bound in
      `dec`, so the updater raises a `ReferenceError` when React applies it. */
  function DecAsWritten(s: State, decValue: Option<Number>): (r: Result<State>)
    ensures r.Err? && r.error.ReferenceError?
  {
    Err(ReferenceError("incValue"))
  }

  /** `dec(decValue)` as documented: subtracts `decValue`, which defaults to 1. */
  function Dec(s: State, decValue: Option<Number>): (r: State)
    ensures r.initial == s.initial
    ensures s.current.Finite? && decValue.None? ==> r.current == Finite(s.current.n - 1)
    ensures s.current.Finite? && decValue.Some? && decValue.value.Finite? ==> r.current == Finite(s.current.n - decValue.value.n)
  {
    State(Add(s.current, Negate(decValue.GetOr(One))), s.initial)
  }

  /** `neg`: a non-zero state changes sign, 0 stays 0. */
  function Neg(s: State): (r: State)
    ensures r.initial == s.initial
    ensures s.current.Finite? ==> r.current == Finite(-s.current.n)
    ensures s.current == PosInf <==> r.current == NegInf
    ensures s.current == NegInf <==> r.current == PosInf
    ensures s.current.NaN? <==> r.current.NaN?
  {
    State(if s.current != Finite(0) then Negate(s.current) else s.current, s.initial)
  }

  /** `set(next)` replaces the state; it does not run the guard. */
  function SetTo(s: State, next: Number): (r: State)
    ensures r.initial == s.initial && r.current == next
  {
    State(next, s.initial)
  }

  /** `reset` restores the captured initial value. */
  function ResetOf(s: State): (r: State)
    ensures r.initial == s.initial && r.current == s.initial
  {
    State(s.initial, s.initial)
  }

  /** A later render: the guard runs again on the new argument, which is
      otherwise ignored. */
  function Rerender(s: State, initialArg: Option<Number>): (r: Result<State>)
    ensures r.Err? <==> initialArg.Some? && !initialArg.value.Finite?
    ensures r.Ok? ==> r.value == s
  {
    var _ :- CheckInitial(initialArg);
    Ok(s)
  }

  /** `neg` twice is the identity, on every number. */
  lemma NegTwice(s: State)
    ensures Neg(Neg(s)) == s
  {
  }

  /** The documented `dec` undoes `inc` by the same finite amount. */
  lemma DecUndoesInc(s: State, delta: Option<Number>)
    requires delta.None? || delta.value.Finite?
    ensures Dec(Inc(s, delta), delta) == s
  {
  }

  /** The defect: as written, `dec` fails on every state where the
      documented one is defined. */
  lemma DecDefect(s: State)
    requires s.current.Finite?
    ensures DecAsWritten(s, None).Err?
    ensures Dec(s, None).current == Finite(s.current.n - 1)
  {
  }

  /** One call on the hook's API, or a later render with some initial
      argument (`None` when an argument is omitted). */
  datatype Action =
    | SetAction(next: Number)
    | ResetAction
    | IncAction(delta: Option<Number>)
    | DecAction(decValue: Option<Number>)
    | NegAction
    | RerenderAction(initialArg: Option<Number>)

  /** One transition of the hook as written: applying a `dec` update always
      fails, and every other transition is the documented one. */
  function StepAsWritten(s: State, a: Action): (r: Result<State>)
    ensures r.Err? <==> a.DecAction? || (a.RerenderAction? && a.initialArg.Some? && !a.initialArg.value.Finite?)
    ensures a.DecAction? ==> r.Err? && r.error.ReferenceError?
    ensures !a.DecAction? ==> r == Step(s, a)
  {
    match a
    case DecAction(d) => DecAsWritten(s, d)
    case _ => Step(s, a)
  }

  /** One transition of the hook with `dec` as documented. */
  function Step(s: State, a: Action): (r: Result<State>)
    ensures r.Ok? ==> r.value.initial == s.initial
    ensures r.Err? <==> a.RerenderAction? && a.initialArg.Some? && !a.initialArg.value.Finite?
  {
    match a
    case SetAction(next) => Ok(SetTo(s, next))
    case ResetAction => Ok(ResetOf(s))
    case IncAction(delta) => Ok(Inc(s, delta))
    case DecAction(d) => Ok(Dec(s, d))
    case NegAction => Ok(Neg(s))
    case RerenderAction(arg) => Rerender(s, arg)
  }

  /** A sequence of transitions; the first failure stops the run. */
  function Run(s: State, actions: seq<Action>): (r: Result<State>)
    ensures r.Ok? ==> r.value.initial == s.initial
    decreases |actions|
  {
    if |actions| == 0 then Ok(s)
    else
      var next :- Step(s, actions[0]);
      Run(next, actions[1..])
  }

  /** `reset` restores the first captured initial value after any run that
      did not fail. */
  lemma ResetRestoresFirstInitial(initialArg: Option<Number>, actions: seq<Action>)
    requires Init(initialArg).Ok? && Run(Init(initialArg).value, actions).Ok?
    ensures ResetOf(Run(Init(initialArg).value, actions).value).current == initialArg.GetOr(Finite(0))
  {
  }

  /** As written, any run that contains a `dec` fails: at the `dec`, or
      earlier at a render with a non-finite argument. */
  lemma {:induction false} RunAsWrittenFailsAtDec(s: State, actions: seq<Action>, i: nat)
    requires i < |actions| && actions[i].DecAction?
    ensures RunAsWritten(s, actions).Err?
    decreases i
  {
    if i > 0 && StepAsWritten(s, actions[0]).Ok? {
      RunAsWrittenFailsAtDec(StepAsWritten(s, actions[0]).value, actions[1..], i - 1);
    }
  }

  /** A sequence of transitions of the hook as written. On a run without
      `dec` it agrees with the documented hook. */
  function RunAsWritten(s: State, actions: seq<Action>): (r: Result<State>)
    ensures (forall j :: 0 <= j < |actions| ==> !actions[j].DecAction?) ==> r == Run(s, actions)
    decreases |actions|
  {
    if |actions| == 0 then Ok(s)
    else
      var next :- StepAsWritten(s, actions[0]);
      RunAsWritten(next, actions[1..])
  }
}

=== FILE: object_state.dfy ===
/** The state updaters of `useObjectState` as a state machine. The state is
    the current object plus the initial object captured on the first render;
    every API call, and every later render, is a transition. */
module ObjectState {
  import opened Results

  datatype State<V> = State(current: map<string, V>, initial: map<string, V>)

  /** One call on the hook's API, or a later render of the component with
      some initial-state argument (`None` when it is omitted). */
  datatype Action<V> =
    | Set(next: map<string, V>)
    | Reset
    | SetField(key: string, value: V)
    | Update(partial: map<string, V>)
    | Rerender(initialArg: Option<map<string, V>>)

  /** The first render: the initial state defaults to `{}` and is captured. */
  function Init<V>(initialArg: Option<map<string, V>>): (s: State<V>)
    ensures s.current == s.initial
    ensures initialArg.None? ==> s.current == map[]
    ensures initialArg.Some? ==> s.current == initialArg.value
  {
    var initial := if initialArg.Some? then initialArg.value else map[];
    State(initial, initial)
  }

  /** `setField(k, v)`: key `k` now holds `v` (added if it was missing) and
      every other field is as it was. */
  function SetFieldOf<V>(s: State<V>, k: string, v: V): (r: State<V>)
    ensures r.initial == s.initial
    ensures r.current.Keys == s.current.Keys + {k}
    ensures r.current[k] == v
    ensures forall j :: j in s.current && j != k ==> r.current[j] == s.current[j]
  {
    State(s.current[k := v], s.initial)
  }

  /** `update(partial)`: a right-biased merge; fields missing from `partial`
      keep their values. */
  function UpdateOf<V>(s: State<V>, partial: map<string, V>): (r: State<V>)
    ensures r.initial == s.initial
    ensures r.current.Keys == s.current.Keys + partial.Keys
    ensures forall j :: j in partial ==> r.current[j] == partial[j]
    ensures forall j :: j in s.current && j !in partial ==> r.current[j] == s.current[j]
  {
    State(s.current + partial, s.initial)
  }

  /** One transition. `set` replaces the whole state, `reset` restores the
      captured initial state, and a later render keeps both: the state hook
      ignores a new initial argument and the API object is built once. */
  function Step<V>(s: State<V>, a: Action<V>): (r: State<V>)
    ensures r.initial == s.initial
    ensures a.Set? ==> r.current == a.next
    ensures a.Reset? ==> r.current == s.initial
    ensures a.Rerender? ==> r == s
  {
    match a
    case Set(next) => State(next, s.initial)
    case Reset => State(s.initial, s.initial)
    case SetField(k, v) => SetFieldOf(s, k, v)
    case Update(partial) => UpdateOf(s, partial)
    case Rerender(_) => s
  }

  /** A sequence of transitions, in order. */
  function Run<V>(s: State<V>, actions: seq<Action<V>>): (r: State<V>)
    ensures r.initial == s.initial
    decreases |actions|
  {
    if |actions| == 0 then s else Run(Step(s, actions[0]), actions[1..])
  }

  /** `reset` restores the first captured initial state, whatever happened
      before, including renders that passed a different initial value. */
  lemma ResetRestoresFirstInitial<V>(initialArg: Option<map<string, V>>, actions: seq<Action<V>>)
    ensures Step(Run(Init(initialArg), actions), Reset).current
         == (if initialArg.Some? then initialArg.value else map[])
  {
  }

  /** `setField(k, v)` has the same effect as `update({[k]: v})`. */
  lemma SetFieldIsOneKeyUpdate<V>(s: State<V>, k: string, v: V)
    ensures Step(s, SetField(k, v)) == Step(s, Update(map[k := v]))
  {
    assert s.current[k := v] == s.current + map[k := v];
  }

  /** `set` replaces the state outright: nothing of the old state survives. */
  lemma SetReplaces<V>(s: State<V>, t: State<V>, next: map<string, V>)
    requires s.initial == t.initial
    ensures Step(s, Set(next)) == Step(t, Set(next))
    ensures Step(s, Set(next)).current == next
  {
  }
}

=== FILE: results.dfy ===
/** Optional values, errors raised by the modelled JavaScript code, and a failure-compatible
    result type that carries them. */
module Results {

  /** The JavaScript error classes the modelled code can raise; a
      `RangeError` is the engine's call-stack overflow. */
  datatype Error =
    | TypeError(reason: string)
    | ReferenceError(identifier: string)
    | RangeError(reason: string)

  datatype Option<+T> = None | Some(value: T) {

    function GetOr(default: T): T {
      match this
      case Some(v) => v
      case None => default
    }
  }

  datatype Result<+T> = Ok(value: T) | Err(error: Error) {

    predicate IsFailure() {
      Err?
    }

    function PropagateFailure<U>(): Result<U>
      requires Err?
    {
      Err(error)
    }

    function Extract(): T
      requires Ok?
    {
      value
    }
  }
}
